=== FILE: README.md ===
# Wallet store and request gating, modelled in Dafny

This project models the server core of a small digital-wallet web application.
That core is two things. The first is `MemStorage`, the in-memory account and
ledger store: a map of users, a map of transactions and one id counter for
each. The second is the request handling built on that store: the `isAdmin`
middleware, the start-up admin bootstrap, the two admin routes, and the two
transaction routes (`GET` and `POST /api/transactions`). A `POST` records a
transaction and then adjusts the caller's balance.

Everything is modelled as pure functions over an immutable `Store`:

- `types.dfy`: the records (`User`, `Transaction`, `NewUser`, `NewTransaction`)
  and the `Option`/`Result` wrappers. Timestamps are abstract clock readings
  (`Time = nat`) that the caller supplies in place of `new Date()`. The
  transaction field `type` is called `kind`, because `type` is a Dafny keyword.
- `keys.dfy`: how the store enumerates a map (`Array.from(map.values())`). A
  JavaScript `Map` iterates in insertion order. The store only inserts fresh
  keys taken from an increasing counter, and it never deletes. So that order is
  ascending key order. This file also holds `filter` and `find` over that order.
- `newest_first.dfy`: the stable newest-first sort of `getTransactions`.
- `storage.dfy`: every `MemStorage` operation, plus the representation
  invariant `Valid`. `Valid` says every key came from its counter and equals the
  record's own id. The operations that throw "User not found" return
  `Err(UserNotFound)`.
- `routes.dfy`: `Handle(store, request) -> (store, response)` for the four
  routes, the two gates, and `Bootstrap`.
- `store_facts.dfy`, `route_facts.dfy`: properties relating several operations
  or requests.
- `ledger.dfy`: whole-sequence properties. `Run` applies a list of requests.
  `RunBalance` proves that a balance equals its starting value plus the sum of
  the accepted amounts. `Serve` applies a list of events: registrations and
  logins, which the authentication module performs through `createUser` and
  `updateLastLogin`, and API requests. `ServerConsistent` proves that every
  store reachable this way from start-up keeps each balance equal to the sum
  of its owner's recorded transactions.
- `scenario.dfy`: a register, deposit, withdraw and list session, worked
  through end to end.

Modelling choices, in the system's own terms:

- **Authentication.** A request carries an optional session user id. The
  handler's `req.user` is that user's current record, read from the store when
  the request arrives. A session whose id is not in the store counts as
  unauthenticated. This means a ban takes effect on the banned user's next
  request, and stays in force until an unban request for that user
  (`RouteFacts.BanStaysInForce`).
- **Body validation.** The transaction schema's verdict is part of the request.
  `PostTransaction(None)` stands for a body that the schema rejects.
- **Ban route target.** The ban route's `:id` is the result of `parseInt`.
  `None` stands for `NaN`. The store lookup then misses, and the handler throws.
- **Escaped errors.** `Fault` stands for an error thrown out of a handler
  (the "User not found" of the store). The store is as it was at the throw.
  What the client then receives is outside the source (see `Routes.Status`
  under "## Left out").

The schema declarations and the browser client suggest otherwise in several
places; the model follows the server code:

- The store does **not** enforce unique usernames or emails. The `unique()` in
  shared/schema.ts belongs to the database schema, which `MemStorage` does not
  use. `getUserByUsername` and `getUserByEmail` return the earliest-created
  match (`StoreFacts.DuplicateUsernameAccepted`).
- The server does **not** force an amount's sign to match its type. It stores
  and applies the amount as submitted, with no lower bound on the balance
  (`RouteFacts.WithdrawalNotResigned`). The sign forcing and the conversion to
  cents happen only in the browser client.
- The `isAdmin` middleware checks authentication and then the admin flag. It
  never checks the ban flag, so a banned admin still passes the admin routes
  (`RouteFacts.BannedAdminListsUsers`), and can even lift their own ban
  (`RouteFacts.BannedAdminLiftsOwnBan`).
- `createUser` does not set `experiencePoints` or `level`, so the `User`
  record here has neither field.
- `getTransactions` sorts only by `createdAt`. `Array.prototype.sort` is
  stable, so entries with the same timestamp stay in insertion order. An entry
  recorded in the same clock tick as an earlier one is therefore listed after
  it (`StoreFacts.LatestListedFirst` needs a strictly later time).

## Model

| member | source | states |
|---|---|---|
| Keys.OrderedKeys | server/storage.ts:40-42 | the keys enumerated are exactly the map's keys below the counter, strictly ascending |
| Keys.Select | server/storage.ts:91-95 | filtering keeps exactly the keys satisfying the predicate and preserves ascending order |
| Keys.First | server/storage.ts:48-52 | `find` yields none iff no key satisfies the predicate, otherwise a satisfying key no larger than any other |
| Storage.GetAllUsers | server/storage.ts:40-42 | lists every stored user exactly once (membership iff stored), in ascending id order |
| Storage.GetUser | server/storage.ts:44-46 | present iff the id is stored, and the record found carries that id |
| Storage.FirstUser | server/storage.ts:48-58 | the lowest-id user satisfying the predicate; none iff no stored user satisfies it |
| Storage.GetUserByUsername | server/storage.ts:48-52 | none iff no user has the name; otherwise the stored user with that name and the lowest id |
| Storage.GetUserByEmail | server/storage.ts:54-58 | none iff no user has the email; otherwise the stored user with that email and the lowest id |
| Storage.CreateUser | server/storage.ts:60-74 | fresh id equal to the counter, counter incremented, input fields copied, balance 0, not admin, not banned, no login recorded, transactions untouched, invariant kept |
| Storage.CreateAdminUser | server/storage.ts:122-136 | the same store and record `CreateUser` produces on the same input, except that `isAdmin` is true |
| Storage.UpdateUserBanStatus | server/storage.ts:76-81 | error iff the id is missing; otherwise only that user's `isBanned` changes, and nothing else in the store |
| Storage.UpdateLastLogin | server/storage.ts:83-89 | error iff the id is missing; otherwise only that user's login address and time change |
| Storage.DetectMultipleAccounts | server/storage.ts:91-95 | exactly the stored users whose last login address is `ip`, in ascending id order |
| Storage.TransactionsOf | server/storage.ts:97-99 | exactly the user's stored transactions, in ascending id order (the filter step) |
| Storage.GetTransactions | server/storage.ts:97-101 | exactly the user's stored transactions, each once, ordered newest first with ties in insertion order |
| Storage.CreateTransaction | server/storage.ts:103-113 | fresh id equal to the counter, owner and given fields stored unchanged, users map untouched, invariant kept |
| Storage.UpdateBalance | server/storage.ts:115-120 | error iff the id is missing; otherwise that balance becomes old plus delta, and nothing else changes |
| NewestFirst.Insert | server/storage.ts:100 | insertion keeps the multiset of entries plus the new one |
| NewestFirst.InsertOrdered | server/storage.ts:100 | inserting an entry with a larger id than all others into an ordered list keeps it ordered |
| NewestFirst.Sort | server/storage.ts:100 | the sort returns a permutation of its input |
| NewestFirst.SortOrdered | server/storage.ts:100 | sorting an input listed in insertion order yields newest first, with equal timestamps keeping insertion order |
| StoreFacts.BanIdempotent | server/storage.ts:76-81 | setting the same ban flag twice equals setting it once |
| StoreFacts.LoginIdempotent | server/storage.ts:83-89 | recording the same login twice equals recording it once |
| StoreFacts.LoginDetected | server/storage.ts:83-95 | after a login is recorded from `ip`, the user is among the accounts detected for `ip`, and every account detected has that address |
| StoreFacts.DuplicateUsernameAccepted | server/storage.ts:48-74 | creating a user whose name is taken succeeds, and lookup by name still returns the earlier account |
| StoreFacts.IdsIncrease | server/storage.ts:60-136 | users and admins draw on one counter, so successive ids strictly increase and are fresh |
| StoreFacts.LatestListedFirst | server/storage.ts:97-113 | a transaction stamped strictly later than its owner's others is listed first |
| Routes.Caller | server/routes.ts:44-47 | the request is authenticated iff its session names a stored user, and `req.user` is that user's current record |
| Routes.AdminGate | server/routes.ts:9-13 | 401 when unauthenticated (checked first), 403 for a non-admin, pass-through iff the caller is an admin |
| Routes.MemberGate | server/routes.ts:44-46 | 401 when unauthenticated (checked first), 403 "Account is banned" for a banned caller, pass-through iff the caller is not banned |
| Routes.Post | server/routes.ts:55-58 | for a stored caller, records one fresh transaction with the submitted fields, and then moves only that caller's balance, by exactly the amount; were the balance update to throw, the entry would stay recorded, though `Handle` never reaches that branch |
| RouteFacts.PostNeverFaults | server/routes.ts:51-58 | a post never ends in the balance update's "User not found" throw, because the gate has already found the caller in the store |
| Routes.Status | server/routes.ts:10-61 | 200 exactly for the JSON replies sent after the checks pass; 401 exactly for an unauthenticated request, 403 exactly for a refusal by role or ban, and a 4xx status exactly for those and a rejected body |
| Routes.Handle | server/routes.ts:31-66 | every route keeps the store invariant, the set of users and the user counter |
| Routes.Bootstrap | server/routes.ts:21-28 | creates the admin account with its fixed name and email only when no user is named "admin", and otherwise leaves the store as it is |
| RouteFacts.AdminRoutesGated | server/routes.ts:9-13 | both admin routes answer 401 without a session user and 403 for a non-admin, leaving the store unchanged |
| RouteFacts.BannedAdminListsUsers | server/routes.ts:9-34 | an admin gets the full user list whatever the ban flag says |
| RouteFacts.BannedAdminLiftsOwnBan | server/routes.ts:9-41 | a banned admin passes the admin gate on the ban route and can clear their own ban flag, and nothing else of their record changes |
| RouteFacts.TransactionRoutesGated | server/routes.ts:44-53 | both transaction routes answer 401 without a session user and 403 for a banned user, leaving the store unchanged |
| RouteFacts.ListTransactionsReadOnly | server/routes.ts:44-49 | the listing never changes the store; it succeeds iff the caller is authenticated and not banned, and then it returns exactly `getTransactions` of the caller |
| RouteFacts.InvalidBodyChangesNothing | server/routes.ts:54-65 | a body that fails validation gets 400 with no transaction and no balance change |
| RouteFacts.PostAccepted | server/routes.ts:51-58 | an accepted post adds exactly one fresh transaction for the caller and moves the caller's balance by exactly the amount; other users are unchanged |
| RouteFacts.WithdrawalNotResigned | server/routes.ts:55-57 | a "withdraw" with a positive amount raises the balance, because the server does not re-sign it |
| RouteFacts.BanBlocksTransactions | server/routes.ts:36-53 | after an admin bans `v`, `v`'s next request to either transaction route gets 403 and changes nothing |
| RouteFacts.HandleKeepsBan | server/routes.ts:31-66 | a request other than lifting `v`'s ban leaves `v` banned |
| RouteFacts.RunKeepsBan | server/routes.ts:36-41 | a ban stays in force through any sequence of requests none of which lifts it |
| RouteFacts.ServeKeepsBan | server/storage.ts:60-89 | a ban stays in force through any registrations, logins and requests none of which lifts it |
| RouteFacts.BanStaysInForce | server/routes.ts:36-53 | once an admin bans `v`, every later transaction request of `v` gets 403 "Account is banned" and changes nothing, until an unban request for `v` |
| RouteFacts.BanMissingUserFaults | server/routes.ts:36-41 | an admin's ban of a NaN or unknown id throws "User not found" (`Fault`) before any write, so the store is as it was |
| RouteFacts.BootstrapIdempotent | server/routes.ts:21-28 | bootstrapping a second time changes nothing |
| RouteFacts.BootstrapCreatesOneAdmin | server/routes.ts:21-28 | without a user named "admin" the bootstrap creates exactly one, an admin; with one it changes nothing |
| RouteFacts.BootstrapTwiceOneAdmin | server/routes.ts:21-28 | run twice on a store without one, the bootstrap leaves exactly one user named "admin", an admin |
| Ledger.CreditBelow | server/storage.ts:103-113 | a user's credit below `n` depends only on the entries stored below `n` |
| Ledger.CreditAppend | server/storage.ts:103-113 | recording an entry under the next key adds its amount to its owner's credit only |
| Ledger.CreditNone | server/storage.ts:60-74 | a user owning no stored entry has zero credit |
| Ledger.EmptyConsistent | server/storage.ts:30-34 | the freshly constructed store is consistent |
| Ledger.CreateUserConsistent | server/storage.ts:60-74 | registering keeps every balance equal to its owner's credit |
| Ledger.BootstrapConsistent | server/routes.ts:21-28 | the admin bootstrap keeps the ledger consistent |
| Ledger.LoginConsistent | server/storage.ts:83-89 | recording a login keeps the ledger consistent |
| Ledger.HandleConsistent | server/routes.ts:51-58 | every request keeps each balance equal to the sum of its owner's recorded amounts |
| Ledger.HandleBalance | server/routes.ts:31-66 | one request moves a user's balance by the amount it records for them, and otherwise not at all |
| Ledger.Run | server/routes.ts:31-66 | a request sequence keeps the store invariant and the set of users |
| Ledger.RunBalance | server/routes.ts:51-58 | after any request sequence a balance equals its start plus the sum of the accepted amounts for that user |
| Ledger.RunConsistent | server/routes.ts:31-66 | any request sequence keeps the ledger consistent |
| Storage.OwnedKeys | server/storage.ts:97-99 | the filtered keys are exactly the stored keys below the counter holding the user's transactions, ascending |
| Storage.TransactionIdsOf | server/storage.ts:97-99 | in a valid store, exactly the ids of the user's transactions, ascending |
| Ledger.OwnedKeysStep | server/storage.ts:97-99 | extending the key range by one adds that key exactly when it holds a transaction of the user |
| Ledger.SumInsert | server/storage.ts:100 | inserting an entry adds its amount to the total |
| Ledger.SumSort | server/storage.ts:100 | sorting keeps the total |
| Ledger.CreditIsListedSum | server/storage.ts:97-99 | the filtered entries of a user sum to that user's credit |
| Ledger.BalanceIsListedSum | server/routes.ts:44-58 | in a consistent store a balance equals the sum of the amounts its owner's listing shows |
| Ledger.Apply | server/storage.ts:60-89 | a registration adds exactly one fresh user id; a login or a request keeps the set of users; every event keeps the store invariant |
| Ledger.Serve | server/routes.ts:31-66 | an event sequence keeps the store invariant and never removes a user |
| Ledger.ApplyConsistent | server/storage.ts:60-89 | every registration, login and request keeps each balance equal to the sum of its owner's recorded amounts |
| Ledger.ServeConsistent | server/routes.ts:31-66 | any sequence of registrations, logins and requests keeps the ledger consistent |
| Ledger.ServerConsistent | server/routes.ts:15-66 | from start-up, through the bootstrap and any sequence of registrations, logins and requests, every balance equals the sum of its owner's transactions |
| Scenario.OrderedPair | server/storage.ts:100 | an ordered list of two distinct entries, and nothing else, has the preceding one first |
| Scenario.ListPair | server/storage.ts:97-101 | a user with exactly two transactions sees the newer one first |
| Scenario.DepositThenWithdraw | server/routes.ts:44-58 | a new account that deposits 5000 and then, at a strictly later time, withdraws 2000 holds 3000, and its listing has the withdrawal first and the deposit second |

## Left out

- Registration, login and logout (`setupAuth`, password hashing, passport sessions) live in the authentication module, which is not part of this model. Authentication is the optional session user id on a request. A registration or a login is the `Register` or `Login` event of `Ledger.Serve`, which calls `createUser` or `updateLastLogin` with any inputs. Whatever checks the authentication module makes before those calls are not modelled, so the events cover more sequences than the server can produce.
- The session store (`MemoryStore` with its 24-hour sweep) is a library component and is not modelled.
- Transaction body parsing by the zod schema is not modelled. Its outcome is part of the request. The `isBanned` body field of the ban route is taken as a boolean, although the source passes any JSON value through.
- Amounts and balances are unbounded integers. The source uses JavaScript numbers (doubles), which are exact only up to 2^53, and the schema may accept fractional amounts. Floating-point behaviour is not modelled.
- The clock is a caller-supplied `nat`. `Date` values and their millisecond resolution are not modelled.
- Asynchronous execution is not modelled: each request runs to completion before the next one starts. The balance update is a single synchronous `+=` on the stored record, so concurrent posts lose no update. Other requests that interleave between the two awaited writes of a post are not represented. `Routes.Post` performs the two writes in the source's order, and when the balance update throws, the recorded entry stays.
- The HTTP server setup, JSON serialisation and Express plumbing are not modelled.
- Routes.Status: `Fault` is given status 500 on an assumption. The handlers are `async`. Whether a rejected handler promise becomes a 500 response depends on the Express version and on an error handler that the source does not install. Whether an unhandled rejection ends the process, and so empties the in-memory store, depends on the Node.js runtime. The model assumes the process survives, with the store as it was at the throw.
- The browser client is not modelled. That includes the dashboard's sign forcing and conversion to cents, the progress percentages and all rendering.

=== FILE: keys.dfy ===
/** Enumerating a store map the way the source does with
    `Array.from(map.values())`: a JavaScript `Map` yields its entries in
    insertion order, and the store only ever inserts fresh keys taken from an
    increasing counter (re-setting an existing key keeps its place), so that
    order is ascending key order. */
module Keys {
  import opened Types

  /** Strictly ascending keys. */
  predicate Increasing(ks: seq<int>) {
    forall i, j | 0 <= i < j < |ks| :: ks[i] < ks[j]
  }

  /** The keys of `m` in [1, n), ascending. */
  function OrderedKeys<V>(m: map<int, V>, n: int): (ks: seq<int>)
    ensures Increasing(ks)
    ensures forall k :: k in ks <==> 1 <= k < n && k in m
    decreases n
  {
    if n <= 1 then []
    else
      var init := OrderedKeys(m, n - 1);
      assert forall i | 0 <= i < |init| :: init[i] in init;
      init + (if n - 1 in m then [n - 1] else [])
  }

  /** A key below every key of an ascending list can go in front of it. */
  lemma IncreasingCons(k: int, ks: seq<int>)
    requires Increasing(ks)
    requires forall i | 0 <= i < |ks| :: k < ks[i]
    ensures Increasing([k] + ks)
  {
  }

  /** The keys of `ks` satisfying `p`, in their original order (`filter`). */
  function Select(ks: seq<int>, p: int -> bool): (r: seq<int>)
    ensures forall k :: k in r <==> k in ks && p(k)
    ensures Increasing(ks) ==> Increasing(r)
  {
    if |ks| == 0 then []
    else
      var rest := Select(ks[1..], p);
      assert ks == [ks[0]] + ks[1..];
      assert Increasing(ks) ==> Increasing(ks[1..]) && forall i | 0 <= i < |rest| :: ks[0] < rest[i] by {
        if Increasing(ks) {
          forall i | 0 <= i < |rest| ensures ks[0] < rest[i] {
            assert rest[i] in rest;
            var j :| 0 <= j < |ks[1..]| && ks[1..][j] == rest[i];
            assert ks[0] < ks[j + 1];
          }
        }
      }
      if p(ks[0]) then
        assert Increasing(ks) ==> Increasing([ks[0]] + rest) by {
          if Increasing(ks) {
            IncreasingCons(ks[0], rest);
          }
        }
        [ks[0]] + rest
      else rest
  }

  /** The first key of `ks` satisfying `p` (`find`); when `ks` ascends it is
      the least such key. */
  function First(ks: seq<int>, p: int -> bool): (r: Option<int>)
    ensures r.None? <==> forall k | k in ks :: !p(k)
    ensures r.Some? ==> r.value in ks && p(r.value)
    ensures r.Some? && Increasing(ks) ==> forall k | k in ks && p(k) :: r.value <= k
  {
    var sel := Select(ks, p);
    if |sel| == 0 then None
    else
      assert sel[0] in sel;
      assert Increasing(ks) ==> forall k | k in sel :: sel[0] <= k by {
        if Increasing(ks) {
          forall k | k in sel ensures sel[0] <= k {
            var i :| 0 <= i < |sel| && sel[i] == k;
          }
        }
      }
      Some(sel[0])
  }

  /** The values `m` holds at the keys `ks`, in that order. */
  function ValuesAt<V>(m: map<int, V>, ks: seq<int>): (r: seq<V>)
    requires forall i | 0 <= i < |ks| :: ks[i] in m
    ensures |r| == |ks|
    ensures forall i | 0 <= i < |ks| :: r[i] == m[ks[i]]
  {
    seq(|ks|, i requires 0 <= i < |ks| => m[ks[i]])
  }

  /** Filtering distributes over concatenation. */
  lemma {:induction false} SelectConcat(a: seq<int>, b: seq<int>, p: int -> bool)
    ensures Select(a + b, p) == Select(a, p) + Select(b, p)
  {
    if |a| == 0 {
      assert a + b == b;
    } else {
      var head := if p(a[0]) then [a[0]] else [];
      assert (a + b)[0] == a[0];
      assert (a + b)[1..] == a[1..] + b;
      calc {
        Select(a + b, p);
        head + Select(a[1..] + b, p);
        { SelectConcat(a[1..], b, p); }
        head + (Select(a[1..], p) + Select(b, p));
        (head + Select(a[1..], p)) + Select(b, p);
        Select(a, p) + Select(b, p);
      }
    }
  }

  /** Filtering a single key keeps it iff it satisfies the predicate. */
  lemma SelectSingle(k: int, p: int -> bool)
    ensures Select([k], p) == if p(k) then [k] else []
  {
    assert [k][1..] == [];
  }

  /** Raising the bound by one adds the key below it, when it is stored and
      satisfies the predicate. */
  lemma SelectStep<V>(m: map<int, V>, n: int, p: int -> bool)
    requires n > 1
    ensures Select(OrderedKeys(m, n), p) ==
            Select(OrderedKeys(m, n - 1), p) + (if n - 1 in m && p(n - 1) then [n - 1] else [])
  {
    var all := OrderedKeys(m, n - 1);
    if n - 1 in m {
      assert OrderedKeys(m, n) == all + [n - 1];
      SelectConcat(all, [n - 1], p);
      SelectSingle(n - 1, p);
    } else {
      assert OrderedKeys(m, n) == all + [];
      assert all + [] == all;
    }
  }
}

=== FILE: ledger.dfy ===
/** The ledger view of the store: a user's balance against the amounts of
    that user's recorded transactions, over whole sequences of requests. */
module Ledger {
  import opened Types
  import opened Storage
  import opened Routes
  import opened Keys
  import NewestFirst

  /** Sum of the amounts of `uid`'s transactions stored under keys in [1, n). */
  function Credit(m: map<int, Transaction>, uid: int, n: int): int
    decreases n
  {
    if n <= 1 then 0
    else Credit(m, uid, n - 1) + (if n - 1 in m && m[n - 1].userId == uid then m[n - 1].amount else 0)
  }

  /** Every transaction belongs to a stored user. */
  predicate Owned(s: Store) {
    forall k | k in s.transactions :: s.transactions[k].userId in s.users
  }

  /** Every balance equals the sum of its owner's recorded amounts. */
  predicate Balanced(s: Store) {
    forall id | id in s.users :: s.users[id].balance == Credit(s.transactions, id, s.nextTransactionId)
  }

  /** What holds of every store the server can reach. */
  predicate Consistent(s: Store) {
    Valid(s) && Owned(s) && Balanced(s)
  }

  /** The credit below `n` only depends on the entries below `n`. */
  lemma {:induction false} CreditBelow(m: map<int, Transaction>, m': map<int, Transaction>, uid: int, n: int)
    requires forall k | 1 <= k < n :: (k in m <==> k in m') && (k in m ==> m[k] == m'[k])
    ensures Credit(m, uid, n) == Credit(m', uid, n)
    decreases n
  {
    if n > 1 {
      CreditBelow(m, m', uid, n - 1);
    }
  }

  /** Recording one more entry under the next key adds its amount to its
      owner's credit and nothing to anyone else's. */
  lemma CreditAppend(m: map<int, Transaction>, t: Transaction, uid: int, n: int)
    requires n >= 1
    ensures Credit(m[n := t], uid, n + 1) ==
            Credit(m, uid, n) + (if t.userId == uid then t.amount else 0)
  {
    CreditBelow(m, m[n := t], uid, n);
  }

  /** A user owning none of the entries below `n` has no credit. */
  lemma {:induction false} CreditNone(m: map<int, Transaction>, uid: int, n: int)
    requires forall k | k in m && 1 <= k < n :: m[k].userId != uid
    ensures Credit(m, uid, n) == 0
    decreases n
  {
    if n > 1 {
      CreditNone(m, uid, n - 1);
    }
  }

  lemma EmptyConsistent()
    ensures Consistent(Empty)
  {
  }

  /** Registering an account keeps the ledger consistent: the new id owns no
      transaction yet. */
  lemma CreateUserConsistent(s: Store, data: NewUser, now: Time)
    requires Consistent(s)
    ensures Consistent(CreateUser(s, data, now).0)
  {
    var (s', u) := CreateUser(s, data, now);
    CreditNone(s.transactions, u.id, s.nextTransactionId);
  }

  /** The admin bootstrap keeps the ledger consistent. */
  lemma BootstrapConsistent(s: Store, hashed: string, now: Time)
    requires Consistent(s)
    ensures Consistent(Bootstrap(s, hashed, now))
  {
    if GetUserByUsername(s, AdminName).None? {
      CreditNone(s.transactions, s.nextUserId, s.nextTransactionId);
    }
  }

  /** Recording a login keeps the ledger consistent. */
  lemma LoginConsistent(s: Store, id: int, ip: string, now: Time)
    requires Consistent(s)
    requires UpdateLastLogin(s, id, ip, now).Ok?
    ensures Consistent(UpdateLastLogin(s, id, ip, now).value)
  {
  }

  /** How a response moves `uid`'s balance: by the amount of a transaction
      recorded for `uid`, and otherwise not at all. */
  function Delta(uid: int, r: Response): int {
    if r.Recorded? && r.transaction.userId == uid then r.transaction.amount else 0
  }

  /** Every request keeps the ledger consistent. */
  lemma {:induction false} HandleConsistent(s: Store, req: Request)
    requires Consistent(s)
    ensures Consistent(Handle(s, req).0)
  {
    var (s', resp) := Handle(s, req);
    var caller := Caller(s, req);
    if req.route.PostTransaction? && MemberGate(caller).None? && req.route.body.Some? {
      var uid := caller.value.id;
      var t := resp.transaction;
      forall id | id in s'.users
        ensures s'.users[id].balance == Credit(s'.transactions, id, s'.nextTransactionId)
      {
        CreditAppend(s.transactions, t, id, s.nextTransactionId);
      }
    } else if req.route.Ban? && AdminGate(caller).None? && req.route.target.Some? {
      assert Balanced(s');
    }
  }

  /** Every request moves each stored user's balance by `Delta`. */
  lemma HandleBalance(s: Store, req: Request, uid: int)
    requires Valid(s)
    requires uid in s.users
    ensures var (s', resp) := Handle(s, req);
      && uid in s'.users
      && s'.users[uid].balance == s.users[uid].balance + Delta(uid, resp)
  {
  }

  /** Requests applied one after another, with their responses. */
  function Run(s: Store, reqs: seq<Request>): (r: (Store, seq<Response>))
    requires Valid(s)
    ensures Valid(r.0)
    ensures |r.1| == |reqs|
    ensures r.0.users.Keys == s.users.Keys
    decreases |reqs|
  {
    if |reqs| == 0 then (s, [])
    else
      var (s1, resp) := Handle(s, reqs[0]);
      var (s2, resps) := Run(s1, reqs[1..]);
      (s2, [resp] + resps)
  }

  /** The sum of the amounts recorded for `uid` across `resps`. */
  function Accepted(uid: int, resps: seq<Response>): int
    decreases |resps|
  {
    if |resps| == 0 then 0 else Delta(uid, resps[0]) + Accepted(uid, resps[1..])
  }

  /** After any sequence of requests, a user's balance is the starting
      balance plus the sum of the amounts of the transactions accepted for
      that user, whatever their sign: no clamping, no floor. */
  lemma {:induction false} RunBalance(s: Store, reqs: seq<Request>, uid: int)
    requires Valid(s)
    requires uid in s.users
    ensures var (s', resps) := Run(s, reqs);
      uid in s'.users && s'.users[uid].balance == s.users[uid].balance + Accepted(uid, resps)
    decreases |reqs|
  {
    if |reqs| > 0 {
      var (s1, resp) := Handle(s, reqs[0]);
      HandleBalance(s, reqs[0], uid);
      RunBalance(s1, reqs[1..], uid);
      var (s2, resps) := Run(s1, reqs[1..]);
      assert Run(s, reqs).1 == [resp] + resps;
      assert ([resp] + resps)[1..] == resps;
    }
  }

  /** Any sequence of requests keeps the ledger consistent. */
  lemma {:induction false} RunConsistent(s: Store, reqs: seq<Request>)
    requires Consistent(s)
    ensures Consistent(Run(s, reqs).0)
    decreases |reqs|
  {
    if |reqs| > 0 {
      HandleConsistent(s, reqs[0]);
      RunConsistent(Handle(s, reqs[0]).0, reqs[1..]);
    }
  }

  /** Sum of the amounts of a list of transactions. */
  function Sum(ts: seq<Transaction>): int
    decreases |ts|
  {
    if |ts| == 0 then 0 else ts[0].amount + Sum(ts[1..])
  }

  lemma {:induction false} SumConcat(a: seq<Transaction>, b: seq<Transaction>)
    ensures Sum(a + b) == Sum(a) + Sum(b)
    decreases |a|
  {
    if |a| == 0 {
      assert a + b == b;
    } else {
      SumConcat(a[1..], b);
      assert (a + b)[1..] == a[1..] + b;
    }
  }

  /** A total is the total of all but the last entry plus the last amount. */
  lemma SumSplit(ts: seq<Transaction>)
    requires |ts| > 0
    ensures Sum(ts) == Sum(ts[..|ts| - 1]) + ts[|ts| - 1].amount
  {
    var last := ts[|ts| - 1];
    SumConcat(ts[..|ts| - 1], [last]);
    assert [last][1..] == [];
    assert ts[..|ts| - 1] + [last] == ts;
  }

  /** Inserting an entry adds its amount to the total. */
  lemma {:induction false} SumInsert(t: Transaction, ts: seq<Transaction>)
    ensures Sum(NewestFirst.Insert(t, ts)) == Sum(ts) + t.amount
    decreases |ts|
  {
    if |ts| > 0 && ts[0].createdAt >= t.createdAt {
      SumInsert(t, ts[1..]);
      assert ([ts[0]] + NewestFirst.Insert(t, ts[1..]))[1..] == NewestFirst.Insert(t, ts[1..]);
    } else if |ts| > 0 {
      assert ([t] + ts)[1..] == ts;
    }
  }

  /** One unfolding of the insertion sort. */
  lemma SortStep(ts: seq<Transaction>)
    requires |ts| > 0
    ensures NewestFirst.Sort(ts) == NewestFirst.Insert(ts[|ts| - 1], NewestFirst.Sort(ts[..|ts| - 1]))
  {
  }

  /** Sorting moves entries around but keeps their total. */
  lemma {:induction false} SumSort(ts: seq<Transaction>)
    ensures Sum(NewestFirst.Sort(ts)) == Sum(ts)
    decreases |ts|
  {
    if |ts| > 0 {
      SortStep(ts);
      SumInsert(ts[|ts| - 1], NewestFirst.Sort(ts[..|ts| - 1]));
      SumSort(ts[..|ts| - 1]);
      SumSplit(ts);
    }
  }

  /** One more key adds that key, if it holds a transaction of `uid`. */
  lemma OwnedKeysStep(m: map<int, Transaction>, uid: int, n: int)
    requires n > 1
    ensures OwnedKeys(m, uid, n) ==
            OwnedKeys(m, uid, n - 1) + (if Owns(m, uid)(n - 1) then [n - 1] else [])
  {
    SelectStep(m, n, Owns(m, uid));
  }

  /** Looking up one more stored key adds the amount stored there. */
  lemma ValuesSnoc(m: map<int, Transaction>, ks: seq<int>, k: int)
    requires forall i | 0 <= i < |ks| :: ks[i] in m
    requires k in m
    ensures forall i | 0 <= i < |ks + [k]| :: (ks + [k])[i] in m
    ensures Sum(ValuesAt(m, ks + [k])) == Sum(ValuesAt(m, ks)) + m[k].amount
  {
    var all := ks + [k];
    assert forall i | 0 <= i < |all| :: all[i] in m;
    var vs := ValuesAt(m, all);
    SumSplit(vs);
    assert vs[..|vs| - 1] == ValuesAt(m, ks);
  }

  /** The entries `getTransactions` filters for `uid`, summed, are `uid`'s
      credit. */
  lemma {:induction false} CreditIsListedSum(m: map<int, Transaction>, uid: int, n: int)
    ensures Sum(ValuesAt(m, OwnedKeys(m, uid, n))) == Credit(m, uid, n)
    decreases n
  {
    if n > 1 {
      CreditIsListedSum(m, uid, n - 1);
      OwnedKeysStep(m, uid, n);
      if Owns(m, uid)(n - 1) {
        ValuesSnoc(m, OwnedKeys(m, uid, n - 1), n - 1);
      } else {
        assert OwnedKeys(m, uid, n - 1) + [] == OwnedKeys(m, uid, n - 1);
      }
    }
  }

  /** In a consistent store a user's balance is the sum of the amounts
      `GET /api/transactions` lists for them. */
  lemma BalanceIsListedSum(s: Store, uid: int)
    requires Consistent(s)
    requires uid in s.users
    ensures s.users[uid].balance == Sum(GetTransactions(s, uid))
  {
    CreditIsListedSum(s.transactions, uid, s.nextTransactionId);
    SumSort(TransactionsOf(s, uid));
  }

  /** One event the server reacts to: a registration or a login, which the
      authentication module carries out through `createUser` and
      `updateLastLogin`, or a request to one of the API routes. */
  datatype Step =
    | Register(data: NewUser, now: Time)
    | Login(id: int, ip: string, now: Time)
    | Http(req: Request)

  /** The store after one event. A login for an id the store lacks throws
      "User not found" before any write, so the store is unchanged. */
  function Apply(s: Store, step: Step): (r: Store)
    requires Valid(s)
    ensures Valid(r)
    ensures step.Register? ==> r.users.Keys == s.users.Keys + {s.nextUserId} && s.nextUserId !in s.users
    ensures !step.Register? ==> r.users.Keys == s.users.Keys
  {
    match step
    case Register(data, now) => CreateUser(s, data, now).0
    case Login(id, ip, now) =>
      (match UpdateLastLogin(s, id, ip, now)
       case Ok(s') => s'
       case Err(_) => s)
    case Http(req) => Handle(s, req).0
  }

  /** Events applied one after another. */
  function Serve(s: Store, steps: seq<Step>): (r: Store)
    requires Valid(s)
    ensures Valid(r)
    ensures s.users.Keys <= r.users.Keys
    decreases |steps|
  {
    if |steps| == 0 then s else Serve(Apply(s, steps[0]), steps[1..])
  }

  /** Every event keeps the ledger consistent. */
  lemma ApplyConsistent(s: Store, step: Step)
    requires Consistent(s)
    ensures Consistent(Apply(s, step))
  {
    match step
    case Register(data, now) => CreateUserConsistent(s, data, now);
    case Login(id, ip, now) =>
      if UpdateLastLogin(s, id, ip, now).Ok? {
        LoginConsistent(s, id, ip, now);
      }
    case Http(req) => HandleConsistent(s, req);
  }

  /** Any sequence of events keeps the ledger consistent. */
  lemma {:induction false} ServeConsistent(s: Store, steps: seq<Step>)
    requires Consistent(s)
    ensures Consistent(Serve(s, steps))
    decreases |steps|
  {
    if |steps| > 0 {
      ApplyConsistent(s, steps[0]);
      ServeConsistent(Apply(s, steps[0]), steps[1..]);
    }
  }

  /** Every store the server reaches, from start-up through the admin
      bootstrap and any sequence of registrations, logins and requests, is
      consistent. */
  lemma ServerConsistent(hashed: string, now: Time, steps: seq<Step>)
    ensures Consistent(Serve(Bootstrap(Empty, hashed, now), steps))
  {
    EmptyConsistent();
    BootstrapConsistent(Empty, hashed, now);
    ServeConsistent(Bootstrap(Empty, hashed, now), steps);
  }
}

=== FILE: newest_first.dfy ===
/** The ordering `getTransactions` applies: `sort` with the comparator
    `b.createdAt - a.createdAt`. `Array.prototype.sort` is stable, so entries
    with equal timestamps keep the order they had before sorting. */
module NewestFirst {
  import opened Types

  /** `a` is listed before `b`: it is newer, or equally new and older in
      insertion order (lower id). */
  predicate Precedes(a: Transaction, b: Transaction) {
    a.createdAt > b.createdAt || (a.createdAt == b.createdAt && a.id < b.id)
  }

  /** Every earlier entry precedes every later one. */
  predicate Ordered(ts: seq<Transaction>) {
    forall i, j | 0 <= i < j < |ts| :: Precedes(ts[i], ts[j])
  }

  /** Ids strictly ascend: the order entries are enumerated from the store. */
  predicate IdsAscending(ts: seq<Transaction>) {
    forall i, j | 0 <= i < j < |ts| :: ts[i].id < ts[j].id
  }

  /** Places `t` after every entry of `ts` that is at least as new, which is
      where a stable sort puts an entry that came after all of them. */
  function Insert(t: Transaction, ts: seq<Transaction>): (r: seq<Transaction>)
    ensures multiset(r) == multiset(ts) + multiset{t}
  {
    if |ts| == 0 then [t]
    else if ts[0].createdAt >= t.createdAt then
      assert ts == [ts[0]] + ts[1..];
      [ts[0]] + Insert(t, ts[1..])
    else [t] + ts
  }

  /** Inserting an entry younger in insertion order than all of an ordered
      list keeps it ordered. */
  lemma {:induction false} InsertOrdered(t: Transaction, ts: seq<Transaction>)
    requires Ordered(ts)
    requires forall u | u in ts :: u.id < t.id
    ensures Ordered(Insert(t, ts))
  {
    if |ts| > 0 && ts[0].createdAt >= t.createdAt {
      var rest := Insert(t, ts[1..]);
      InsertOrdered(t, ts[1..]);
      assert ts == [ts[0]] + ts[1..];
      forall j | 0 <= j < |rest| ensures Precedes(ts[0], rest[j]) {
        assert rest[j] in multiset(ts[1..]) + multiset{t};
        if rest[j] != t {
          assert rest[j] in ts[1..];
          var k :| 0 <= k < |ts[1..]| && ts[1..][k] == rest[j];
          assert ts[k + 1] == rest[j];
        }
      }
      assert Insert(t, ts) == [ts[0]] + rest;
    }
  }

  /** Stable sort, newest first. */
  function Sort(ts: seq<Transaction>): (r: seq<Transaction>)
    ensures multiset(r) == multiset(ts)
  {
    if |ts| == 0 then []
    else
      var init := ts[..|ts| - 1];
      assert ts == init + [ts[|ts| - 1]];
      Insert(ts[|ts| - 1], Sort(init))
  }

  /** Sorting entries listed in insertion order puts them newest first,
      equal timestamps keeping that order. */
  lemma {:induction false} SortOrdered(ts: seq<Transaction>)
    requires IdsAscending(ts)
    ensures Ordered(Sort(ts))
    decreases |ts|
  {
    if |ts| > 0 {
      var init := ts[..|ts| - 1];
      var last := ts[|ts| - 1];
      assert ts == init + [last];
      var sorted := Sort(init);
      SortOrdered(init);
      forall u | u in sorted ensures u.id < last.id {
        assert u in multiset(init);
        var i :| 0 <= i < |init| && init[i] == u;
      }
      InsertOrdered(last, sorted);
    }
  }
}

=== FILE: route_facts.dfy ===
/** Properties of request handling: the order of the authorization checks,
    which routes leave the store alone, what an accepted transaction does,
    and the admin bootstrap. */
module RouteFacts {
  import opened Types
  import opened Storage
  import opened Routes
  import opened Ledger

  predicate IsAdminRoute(r: Route) {
    r.ListUsers? || r.Ban?
  }

  predicate IsTransactionRoute(r: Route) {
    r.ListTransactions? || r.PostTransaction?
  }

  /** Admin routes: 401 without a session user, checked before the role;
      403 for a non-admin; neither touches the store. */
  lemma AdminRoutesGated(s: Store, req: Request)
    requires Valid(s)
    requires IsAdminRoute(req.route)
    ensures Caller(s, req).None? ==> Handle(s, req) == (s, Unauthorized)
    ensures Caller(s, req).Some? && !Caller(s, req).value.isAdmin ==>
              Handle(s, req) == (s, Forbidden(None))
  {
  }

  /** The admin check ignores the ban flag: a banned admin still lists all
      users. */
  lemma BannedAdminListsUsers(s: Store, req: Request)
    requires Valid(s)
    requires req.route == ListUsers
    requires Caller(s, req).Some? && Caller(s, req).value.isAdmin
    ensures Handle(s, req) == (s, UserList(GetAllUsers(s)))
  {
  }

  /** A banned admin passes the `isAdmin` middleware on the ban route too,
      so they can lift their own ban. */
  lemma BannedAdminLiftsOwnBan(s: Store, v: int, now: Time)
    requires Valid(s)
    requires v in s.users && s.users[v].isAdmin && s.users[v].isBanned
    ensures var (s1, resp) := Handle(s, Request(Some(v), Ban(Some(v), false), now));
      && resp == Succeeded
      && !s1.users[v].isBanned
      && s1.users[v].(isBanned := true) == s.users[v]
  {
  }

  /** Transaction routes: 401 without a session user, checked before the
      ban flag; 403 with "Account is banned" for a banned user; neither
      touches the store. */
  lemma TransactionRoutesGated(s: Store, req: Request)
    requires Valid(s)
    requires IsTransactionRoute(req.route)
    ensures Caller(s, req).None? ==> Handle(s, req) == (s, Unauthorized)
    ensures Caller(s, req).Some? && Caller(s, req).value.isBanned ==>
              Handle(s, req) == (s, Forbidden(Some(BannedMessage)))
  {
  }

  /** `GET /api/transactions` never changes the store, and an admitted caller
      gets exactly their own transactions, newest first. */
  lemma ListTransactionsReadOnly(s: Store, req: Request)
    requires Valid(s)
    requires req.route == ListTransactions
    ensures Handle(s, req).0 == s
    ensures Status(Handle(s, req).1) == 200 <==>
              Caller(s, req).Some? && !Caller(s, req).value.isBanned
    ensures Caller(s, req).Some? && !Caller(s, req).value.isBanned ==>
              Handle(s, req).1 == TransactionList(GetTransactions(s, req.session.value))
  {
  }

  /** A post never ends in the balance update's throw: the gate has found
      the caller in the store. */
  lemma PostNeverFaults(s: Store, req: Request)
    requires Valid(s)
    requires req.route.PostTransaction?
    ensures Handle(s, req).1 != Fault
  {
  }

  /** A body the schema rejects gets 400 before either write happens. */
  lemma InvalidBodyChangesNothing(s: Store, req: Request)
    requires Valid(s)
    requires req.route == PostTransaction(None)
    requires Caller(s, req).Some? && !Caller(s, req).value.isBanned
    ensures Handle(s, req) == (s, BadRequest)
  {
  }

  /** An accepted `POST /api/transactions` records exactly one transaction,
      owned by the caller, and moves the caller's balance by exactly the
      submitted amount: the server neither re-signs the amount to match its
      type nor stops the balance going below zero. */
  lemma PostAccepted(s: Store, req: Request, data: NewTransaction)
    requires Valid(s)
    requires req.route == PostTransaction(Some(data))
    requires Caller(s, req).Some? && !Caller(s, req).value.isBanned
    ensures var (s1, resp) := Handle(s, req);
      var uid := req.session.value;
      && resp.Recorded?
      && resp.transaction.userId == uid
      && resp.transaction.amount == data.amount
      && resp.transaction.kind == data.kind
      && s1.transactions.Keys == s.transactions.Keys + {resp.transaction.id}
      && resp.transaction.id !in s.transactions
      && s1.users[uid].balance == s.users[uid].balance + data.amount
      && (forall k | k in s.users && k != uid :: s1.users[k] == s.users[k])
  {
  }

  /** In particular a withdrawal submitted with a positive amount raises the
      balance: its sign is not forced to match its type. */
  lemma WithdrawalNotResigned(s: Store, req: Request, amount: int, description: string)
    requires Valid(s)
    requires amount > 0
    requires req.route == PostTransaction(Some(NewTransaction(amount, "withdraw", description)))
    requires Caller(s, req).Some? && !Caller(s, req).value.isBanned
    ensures var s1 := Handle(s, req).0;
      s1.users[req.session.value].balance > s.users[req.session.value].balance
  {
  }

  /** After an admin bans `v`, `v`'s next request to either transaction route
      is refused with 403 and changes nothing. */
  lemma BanBlocksTransactions(s: Store, admin: int, v: int, now: Time, next: Request)
    requires Valid(s)
    requires admin in s.users && s.users[admin].isAdmin
    requires v in s.users
    requires next.session == Some(v) && IsTransactionRoute(next.route)
    ensures var (s1, resp) := Handle(s, Request(Some(admin), Ban(Some(v), true), now));
      && resp == Succeeded
      && Handle(s1, next) == (s1, Forbidden(Some(BannedMessage)))
  {
  }

  /** A request other than lifting `v`'s ban leaves `v` banned. */
  lemma HandleKeepsBan(s: Store, req: Request, v: int)
    requires Valid(s)
    requires v in s.users && s.users[v].isBanned
    requires req.route != Ban(Some(v), false)
    ensures v in Handle(s, req).0.users && Handle(s, req).0.users[v].isBanned
  {
  }

  /** A ban stays in force through any requests that do not lift it. */
  lemma {:induction false} RunKeepsBan(s: Store, reqs: seq<Request>, v: int)
    requires Valid(s)
    requires v in s.users && s.users[v].isBanned
    requires forall i | 0 <= i < |reqs| :: reqs[i].route != Ban(Some(v), false)
    ensures v in Run(s, reqs).0.users && Run(s, reqs).0.users[v].isBanned
    decreases |reqs|
  {
    if |reqs| > 0 {
      HandleKeepsBan(s, reqs[0], v);
      assert forall i | 0 <= i < |reqs| - 1 :: reqs[1..][i] == reqs[i + 1];
      RunKeepsBan(Handle(s, reqs[0]).0, reqs[1..], v);
    }
  }

  /** The event lifts `v`'s ban: an unban request for `v`, whoever sends it. */
  predicate Unbans(step: Step, v: int) {
    step.Http? && step.req.route == Ban(Some(v), false)
  }

  /** Registrations, logins and requests other than lifting `v`'s ban leave
      `v` banned. */
  lemma {:induction false} ServeKeepsBan(s: Store, steps: seq<Step>, v: int)
    requires Valid(s)
    requires v in s.users && s.users[v].isBanned
    requires forall i | 0 <= i < |steps| :: !Unbans(steps[i], v)
    ensures v in Serve(s, steps).users && Serve(s, steps).users[v].isBanned
    decreases |steps|
  {
    if |steps| > 0 {
      var s1 := Apply(s, steps[0]);
      if steps[0].Http? {
        HandleKeepsBan(s, steps[0].req, v);
      }
      assert forall i | 0 <= i < |steps| - 1 :: steps[1..][i] == steps[i + 1];
      ServeKeepsBan(s1, steps[1..], v);
    }
  }

  /** Once an admin bans `v`, every later request of `v` to either
      transaction route is refused with 403 and changes nothing, whatever
      registrations, logins and requests come in between, as long as none
      lifts the ban. */
  lemma BanStaysInForce(s: Store, admin: int, v: int, now: Time, steps: seq<Step>, next: Request)
    requires Valid(s)
    requires admin in s.users && s.users[admin].isAdmin
    requires v in s.users
    requires forall i | 0 <= i < |steps| :: !Unbans(steps[i], v)
    requires next.session == Some(v) && IsTransactionRoute(next.route)
    ensures var s1 := Handle(s, Request(Some(admin), Ban(Some(v), true), now)).0;
      var s2 := Serve(s1, steps);
      Handle(s2, next) == (s2, Forbidden(Some(BannedMessage)))
  {
    var s1 := Handle(s, Request(Some(admin), Ban(Some(v), true), now)).0;
    ServeKeepsBan(s1, steps, v);
  }

  /** Banning an id that is not a number or names no stored user throws
      "User not found" out of the handler; the store is left as it was. */
  lemma BanMissingUserFaults(s: Store, req: Request, target: Option<int>, banned: bool)
    requires Valid(s)
    requires req.route == Ban(target, banned)
    requires Caller(s, req).Some? && Caller(s, req).value.isAdmin
    requires target.None? || target.value !in s.users
    ensures Handle(s, req) == (s, Fault)
  {
  }

  /** The ids of the users named "admin". */
  function AdminsNamed(s: Store): set<int> {
    set id | id in s.users && s.users[id].username == AdminName
  }

  /** Bootstrapping again changes nothing, whatever password hash and time
      it is given. */
  lemma BootstrapIdempotent(s: Store, h1: string, t1: Time, h2: string, t2: Time)
    requires Valid(s)
    ensures Bootstrap(Bootstrap(s, h1, t1), h2, t2) == Bootstrap(s, h1, t1)
  {
    var s1 := Bootstrap(s, h1, t1);
    if GetUserByUsername(s, AdminName).None? {
      assert s1.users[s.nextUserId].username == AdminName;
    }
  }

  /** On a store without a user named "admin", bootstrapping creates
      exactly one, an administrator; on a store with one it changes nothing. */
  lemma BootstrapCreatesOneAdmin(s: Store, hashed: string, now: Time)
    requires Valid(s)
    ensures AdminsNamed(s) == {} ==>
      && AdminsNamed(Bootstrap(s, hashed, now)) == {s.nextUserId}
      && Bootstrap(s, hashed, now).users[s.nextUserId].isAdmin
    ensures AdminsNamed(s) != {} ==> Bootstrap(s, hashed, now) == s
  {
    var s1 := Bootstrap(s, hashed, now);
    if AdminsNamed(s) == {} {
      assert GetUserByUsername(s, AdminName).None? by {
        forall id | id in s.users ensures s.users[id].username != AdminName {
          assert id !in AdminsNamed(s);
        }
      }
      forall id ensures id in AdminsNamed(s1) <==> id == s.nextUserId {
        if id != s.nextUserId {
          assert id !in AdminsNamed(s);
        }
      }
    } else {
      var id :| id in AdminsNamed(s);
      assert s.users[id].username == AdminName;
    }
  }

  /** Run twice on a store without a user named "admin", the bootstrap
      leaves exactly one, an administrator. */
  lemma BootstrapTwiceOneAdmin(s: Store, h1: string, t1: Time, h2: string, t2: Time)
    requires Valid(s)
    requires AdminsNamed(s) == {}
    ensures var s2 := Bootstrap(Bootstrap(s, h1, t1), h2, t2);
      && |AdminsNamed(s2)| == 1
      && forall id | id in AdminsNamed(s2) :: s2.users[id].isAdmin
  {
    BootstrapIdempotent(s, h1, t1, h2, t2);
    BootstrapCreatesOneAdmin(s, h1, t1);
  }
}

=== FILE: routes.dfy ===
/** The request handling of server/routes.ts: the `isAdmin` middleware, the
    admin bootstrap in `registerRoutes`, and the four API routes, each as a
    pure step from (store, request) to (store, response).

    Authentication is the session's user id: the user record the handlers see
    as `req.user` is read from the store when the request arrives, and a
    session naming no stored user counts as unauthenticated. Body validation
    is done before a request reaches the model: `PostTransaction` carries
    `None` when the transaction schema rejects the body. */
module Routes {
  import opened Types
  import opened Storage

  datatype Route =
    | ListUsers                                     // GET  /api/admin/users
    | Ban(target: Option<int>, banned: bool)        // POST /api/admin/users/:id/ban
    | ListTransactions                              // GET  /api/transactions
    | PostTransaction(body: Option<NewTransaction>) // POST /api/transactions

  /** `target` of `Ban` is `parseInt(req.params.id)`, `None` when it is NaN. */
  datatype Request = Request(session: Option<int>, route: Route, now: Time)

  datatype Response =
    | Unauthorized                      // sendStatus(401)
    | Forbidden(message: Option<string>) // 403, with or without a JSON message
    | BadRequest                        // 400 with the schema's field errors
    | Fault                             // the handler threw; no JSON body
    | UserList(users: seq<User>)
    | TransactionList(transactions: seq<Transaction>)
    | Recorded(transaction: Transaction)
    | Succeeded                         // { success: true }

  /** The HTTP status of a response: 200 exactly for the JSON replies a
      handler sends after its checks pass, a client error for each refusal.
      A thrown error is taken to reach a default error handler, which
      answers 500. */
  function Status(r: Response): (code: int)
    ensures code == 200 <==> r.UserList? || r.TransactionList? || r.Recorded? || r.Succeeded?
    ensures code == 401 <==> r.Unauthorized?
    ensures code == 403 <==> r.Forbidden?
    ensures 400 <= code < 500 <==> r.Unauthorized? || r.Forbidden? || r.BadRequest?
  {
    match r
    case Unauthorized => 401
    case Forbidden(_) => 403
    case BadRequest => 400
    case Fault => 500
    case _ => 200
  }

  const BannedMessage: string := "Account is banned"

  /** `req.user` for a request: the stored record of the session's user. */
  function Caller(s: Store, req: Request): (r: Option<User>)
    ensures r.Some? <==> req.session.Some? && req.session.value in s.users
    ensures r.Some? ==> r.value == s.users[req.session.value]
  {
    match req.session
    case None => None
    case Some(id) => GetUser(s, id)
  }

  /** The `isAdmin` middleware: `Some(response)` ends the request, `None`
      passes it on (`next()`). Authentication is checked first; the ban flag
      is not consulted. */
  function AdminGate(caller: Option<User>): (r: Option<Response>)
    ensures caller.None? ==> r == Some(Unauthorized)
    ensures caller.Some? && !caller.value.isAdmin ==> r == Some(Forbidden(None))
    ensures r.None? <==> caller.Some? && caller.value.isAdmin
  {
    if caller.None? then Some(Unauthorized)
    else if !caller.value.isAdmin then Some(Forbidden(None))
    else None
  }

  /** The check shared by both transaction routes: 401 before 403. */
  function MemberGate(caller: Option<User>): (r: Option<Response>)
    ensures caller.None? ==> r == Some(Unauthorized)
    ensures caller.Some? && caller.value.isBanned ==> r == Some(Forbidden(Some(BannedMessage)))
    ensures r.None? <==> caller.Some? && !caller.value.isBanned
  {
    if caller.None? then Some(Unauthorized)
    else if caller.value.isBanned then Some(Forbidden(Some(BannedMessage)))
    else None
  }

  /** `POST /api/transactions` once the caller has passed the gate: record
      the entry, then add exactly the submitted amount to the caller's
      balance. The two writes are separate steps, so were the balance update
      to throw, the entry would stay recorded; `Handle` never reaches that
      branch, because it calls `Post` only for a stored caller and no user is
      ever deleted. */
  function Post(s: Store, uid: int, data: NewTransaction, now: Time): (r: (Store, Response))
    requires Valid(s)
    ensures uid in s.users ==>
      && r.1.Recorded?
      && var t := r.1.transaction;
      && t.id == s.nextTransactionId && t.id !in s.transactions
      && t.userId == uid && t.amount == data.amount && t.kind == data.kind
      && t.description == data.description && t.createdAt == now
      && r.0.transactions == s.transactions[t.id := t]
      && r.0.nextTransactionId == s.nextTransactionId + 1
      && r.0.nextUserId == s.nextUserId
      && r.0.users.Keys == s.users.Keys
      && r.0.users[uid].balance == s.users[uid].balance + data.amount
      && r.0.users[uid].(balance := s.users[uid].balance) == s.users[uid]
      && (forall k | k in s.users && k != uid :: r.0.users[k] == s.users[k])
    ensures uid !in s.users ==>
      && r.1 == Fault && r.0.users == s.users
      && r.0.transactions.Keys == s.transactions.Keys + {s.nextTransactionId}
    ensures Valid(r.0)
  {
    var (s1, t) := CreateTransaction(s, uid, data, now);
    match UpdateBalance(s1, uid, data.amount)
    case Err(_) => (s1, Fault)
    case Ok(s2) => (s2, Recorded(t))
  }

  /** One request against the store. */
  function Handle(s: Store, req: Request): (r: (Store, Response))
    requires Valid(s)
    ensures Valid(r.0)
    ensures r.0.users.Keys == s.users.Keys
    ensures r.0.nextUserId == s.nextUserId
  {
    var caller := Caller(s, req);
    match req.route
    case ListUsers =>
      (match AdminGate(caller)
       case Some(stop) => (s, stop)
       case None => (s, UserList(GetAllUsers(s))))
    case Ban(target, banned) =>
      (match AdminGate(caller)
       case Some(stop) => (s, stop)
       case None =>
         if target.None? then (s, Fault)
         else
           match UpdateUserBanStatus(s, target.value, banned)
           case Err(_) => (s, Fault)
           case Ok(s') => (s', Succeeded))
    case ListTransactions =>
      (match MemberGate(caller)
       case Some(stop) => (s, stop)
       case None => (s, TransactionList(GetTransactions(s, caller.value.id))))
    case PostTransaction(body) =>
      (match MemberGate(caller)
       case Some(stop) => (s, stop)
       case None =>
         if body.None? then (s, BadRequest)
         else Post(s, caller.value.id, body.value, req.now))
  }

  const AdminName: string := "admin"
  const AdminEmail: string := "admin@wallet.com"

  /** The start-up step of `registerRoutes`: create the admin account unless
      a user named "admin" exists. `hashed` is the hash of the default
      password, computed by the authentication module. */
  function Bootstrap(s: Store, hashed: string, now: Time): (r: Store)
    requires Valid(s)
    ensures Valid(r)
    ensures GetUserByUsername(s, AdminName).Some? ==> r == s
    ensures GetUserByUsername(s, AdminName).None? ==>
      && r.nextUserId == s.nextUserId + 1
      && r.users == s.users[s.nextUserId := User(s.nextUserId, AdminName, AdminEmail, hashed,
                                                  0, true, false, None, None, now)]
      && r.transactions == s.transactions
      && r.nextTransactionId == s.nextTransactionId
  {
    if GetUserByUsername(s, AdminName).None? then
      CreateAdminUser(s, NewUser(AdminName, AdminEmail, hashed), now).0
    else s
  }
}

=== FILE: scenario.dfy ===
/** A worked session: register, deposit 50.00, withdraw 20.00, list. Amounts
    are in cents, already signed by the client as the dashboard does. */
module Scenario {
  import opened Types
  import opened Storage
  import opened Routes
  import opened Ledger
  import NewestFirst

  /** The deposit and the withdrawal of the session, in cents. */
  const Deposit: NewTransaction := NewTransaction(5000, "deposit", "")
  const Withdrawal: NewTransaction := NewTransaction(-2000, "withdraw", "")

  /** Two requests in a row. */
  lemma RunPair(s: Store, r1: Request, r2: Request)
    requires Valid(s)
    ensures var (s1, a) := Handle(s, r1);
      var (s2, b) := Handle(s1, r2);
      Run(s, [r1, r2]) == (s2, [a, b])
  {
    var (s1, a) := Handle(s, r1);
    var (s2, b) := Handle(s1, r2);
    assert [r1, r2][1..] == [r2] && [r2][1..] == [];
    assert Run(s2, []) == (s2, []);
    assert [b] + [] == [b];
    assert Run(s1, [r2]) == (s2, [b]);
    assert [a] + [b] == [a, b];
  }

  /** A sequence without repeated elements has as many elements as its set. */
  lemma {:induction false} DistinctCount<X>(xs: seq<X>)
    requires forall i, j | 0 <= i < j < |xs| :: xs[i] != xs[j]
    ensures |set x | x in xs| == |xs|
  {
    if |xs| > 0 {
      DistinctCount(xs[1..]);
      assert (set x | x in xs) == {xs[0]} + (set x | x in xs[1..]);
      assert xs[0] !in (set x | x in xs[1..]);
    }
  }

  /** An ordered listing of two distinct entries, and nothing else, has the
      one that precedes first. */
  lemma OrderedPair(list: seq<Transaction>, a: Transaction, b: Transaction)
    requires NewestFirst.Ordered(list)
    requires a in list && b in list && NewestFirst.Precedes(b, a)
    requires forall t | t in list :: t == a || t == b
    ensures list == [b, a]
  {
    DistinctCount(list);
    assert (set x | x in list) == {a, b};
    assert |list| == 2;
    assert list[0] in list && list[1] in list;
    assert NewestFirst.Precedes(list[0], list[1]);
  }

  /** A listing holding exactly the entries of `uid`, where `uid` owns
      exactly two stored entries, holds those two and nothing else. */
  lemma PairMembers(list: seq<Transaction>, m: map<int, Transaction>, uid: int,
                    older: Transaction, newer: Transaction)
    requires older.userId == uid && newer.userId == uid
    requires older.id in m && m[older.id] == older
    requires newer.id in m && m[newer.id] == newer
    requires forall k | k in m && m[k].userId == uid :: k == older.id || k == newer.id
    requires forall t :: t in list <==> t.id in m && m[t.id] == t && t.userId == uid
    ensures older in list && newer in list
    ensures forall t | t in list :: t == older || t == newer
  {
  }

  /** A user with exactly two transactions sees the newer one first. */
  lemma ListPair(s: Store, uid: int, older: Transaction, newer: Transaction)
    requires Valid(s)
    requires older.userId == uid && newer.userId == uid && older.id != newer.id
    requires older.id in s.transactions && s.transactions[older.id] == older
    requires newer.id in s.transactions && s.transactions[newer.id] == newer
    requires forall k | k in s.transactions && s.transactions[k].userId == uid ::
               k == older.id || k == newer.id
    requires older.createdAt < newer.createdAt
    ensures GetTransactions(s, uid) == [newer, older]
  {
    var list := GetTransactions(s, uid);
    PairMembers(list, s.transactions, uid, older, newer);
    OrderedPair(list, older, newer);
  }

  /** A fresh account that deposits 5000 and then withdraws 2000 ends with a
      balance of 3000, and its listing holds exactly the two entries, the
      later withdrawal first. */
  lemma DepositThenWithdraw(password: string, t0: Time, t1: Time, t2: Time)
    requires t1 < t2
    ensures
      var (s1, alice) := CreateUser(Empty, NewUser("alice", "a@x.com", password), t0);
      var reqs := [Request(Some(alice.id), PostTransaction(Some(Deposit)), t1),
                   Request(Some(alice.id), PostTransaction(Some(Withdrawal)), t2)];
      var (s3, resps) := Run(s1, reqs);
      && s3.users[alice.id].balance == 3000
      && resps[0].Recorded? && resps[1].Recorded?
      && GetTransactions(s3, alice.id) == [resps[1].transaction, resps[0].transaction]
  {
    var (s1, alice) := CreateUser(Empty, NewUser("alice", "a@x.com", password), t0);
    var r1 := Request(Some(alice.id), PostTransaction(Some(Deposit)), t1);
    var r2 := Request(Some(alice.id), PostTransaction(Some(Withdrawal)), t2);
    RunPair(s1, r1, r2);
    var (s2, a) := Handle(s1, r1);
    var (s3, b) := Handle(s2, r2);
    assert a.Recorded? && s2.users[alice.id].balance == 5000;
    assert b.Recorded? && s3.users[alice.id].balance == 3000;
    assert s3.transactions == map[1 := a.transaction, 2 := b.transaction];
    ListPair(s3, alice.id, a.transaction, b.transaction);
  }
}

=== FILE: storage.dfy ===
/** `MemStorage` (server/storage.ts): two maps and two id counters. Every
    operation is a pure function from the old store to the new one; the ones
    that throw "User not found" in the source return `Err(UserNotFound)` and
    leave the store to the caller unchanged. */
module Storage {
  import opened Types
  import opened Keys
  import NewestFirst

  datatype Store = Store(
    users: map<int, User>,
    transactions: map<int, Transaction>,
    nextUserId: int,
    nextTransactionId: int)

  /** The store the constructor builds: empty maps, both counters at 1. */
  const Empty: Store := Store(map[], map[], 1, 1)

  /** The representation invariant: every key was handed out by its counter
      and is the record's own id. The constructor establishes it and every
      operation keeps it (see the `Valid(...)` postconditions below). */
  predicate Valid(s: Store) {
    && 1 <= s.nextUserId
    && 1 <= s.nextTransactionId
    && (forall id | id in s.users :: 1 <= id < s.nextUserId && s.users[id].id == id)
    && (forall id | id in s.transactions ::
          1 <= id < s.nextTransactionId && s.transactions[id].id == id)
  }

  /** User ids in the order `this.users.values()` yields them. */
  function UserIds(s: Store): (ks: seq<int>)
    requires Valid(s)
    ensures Increasing(ks)
    ensures forall id :: id in ks <==> id in s.users
    ensures forall i | 0 <= i < |ks| :: ks[i] in s.users
  {
    var ks := OrderedKeys(s.users, s.nextUserId);
    assert forall i | 0 <= i < |ks| :: ks[i] in ks;
    ks
  }

  /** The users at the ids `ks`, in that order. */
  function UsersAt(s: Store, ks: seq<int>): (r: seq<User>)
    requires Valid(s)
    requires forall k | k in ks :: k in s.users
    requires Increasing(ks)
    ensures forall u :: u in r <==> u.id in ks && u.id in s.users && s.users[u.id] == u
    ensures forall i, j | 0 <= i < j < |r| :: r[i].id < r[j].id
  {
    assert forall i | 0 <= i < |ks| :: ks[i] in ks;
    var r := ValuesAt(s.users, ks);
    assert forall i | 0 <= i < |r| :: r[i].id == ks[i];
    assert forall u: User | u.id in ks && u.id in s.users && s.users[u.id] == u :: u in r by {
      forall u: User | u.id in ks && u.id in s.users && s.users[u.id] == u ensures u in r {
        var i :| 0 <= i < |ks| && ks[i] == u.id;
        assert r[i] == u;
      }
    }
    r
  }

  /** `getAllUsers`: every stored user exactly once, in ascending id order. */
  function GetAllUsers(s: Store): (r: seq<User>)
    requires Valid(s)
    ensures forall u :: u in r <==> u.id in s.users && s.users[u.id] == u
    ensures forall i, j | 0 <= i < j < |r| :: r[i].id < r[j].id
  {
    UsersAt(s, UserIds(s))
  }

  /** `getUser`: the record stored under `id`, if any. */
  function GetUser(s: Store, id: int): (r: Option<User>)
    ensures r.Some? <==> id in s.users
    ensures r.Some? ==> r.value == s.users[id]
    ensures Valid(s) && r.Some? ==> r.value.id == id
  {
    if id in s.users then Some(s.users[id]) else None
  }

  /** `Array.from(users.values()).find(p)`: the first (lowest-id) user
      satisfying `p`. */
  function FirstUser(s: Store, p: User -> bool): (r: Option<User>)
    requires Valid(s)
    ensures r.None? <==> forall id | id in s.users :: !p(s.users[id])
    ensures r.Some? ==> && r.value.id in s.users && s.users[r.value.id] == r.value
                        && p(r.value)
                        && forall id | id in s.users && p(s.users[id]) :: r.value.id <= id
  {
    var ks := UserIds(s);
    match First(ks, id => id in s.users && p(s.users[id]))
    case None => None
    case Some(id) => Some(s.users[id])
  }

  /** `getUserByUsername`: exact, case-sensitive match. Usernames are not
      required to be unique, so this is the earliest-created match. */
  function GetUserByUsername(s: Store, name: string): (r: Option<User>)
    requires Valid(s)
    ensures r.None? <==> forall id | id in s.users :: s.users[id].username != name
    ensures r.Some? ==> && r.value.id in s.users && s.users[r.value.id] == r.value
                        && r.value.username == name
                        && forall id | id in s.users && s.users[id].username == name ::
                             r.value.id <= id
  {
    FirstUser(s, (u: User) => u.username == name)
  }

  /** `getUserByEmail`: as `GetUserByUsername`, on the email field. */
  function GetUserByEmail(s: Store, email: string): (r: Option<User>)
    requires Valid(s)
    ensures r.None? <==> forall id | id in s.users :: s.users[id].email != email
    ensures r.Some? ==> && r.value.id in s.users && s.users[r.value.id] == r.value
                        && r.value.email == email
                        && forall id | id in s.users && s.users[id].email == email ::
                             r.value.id <= id
  {
    FirstUser(s, (u: User) => u.email == email)
  }

  /** `createUser`: takes the next user id and stores a fresh account with
      zero balance, no privileges and no login recorded. Nothing checks that
      the username or email is unused. */
  function CreateUser(s: Store, data: NewUser, now: Time): (r: (Store, User))
    requires Valid(s)
    ensures var (s', u) := r;
      && u.id == s.nextUserId && u.id !in s.users
      && s'.nextUserId == s.nextUserId + 1
      && s'.users == s.users[u.id := u]
      && s'.transactions == s.transactions
      && s'.nextTransactionId == s.nextTransactionId
      && Valid(s')
    ensures var u := r.1;
      && u.username == data.username && u.email == data.email && u.password == data.password
      && u.balance == 0 && !u.isAdmin && !u.isBanned
      && u.lastLoginIp == None && u.lastLoginTime == None && u.createdAt == now
  {
    var id := s.nextUserId;
    var user := User(id, data.username, data.email, data.password,
                     0, false, false, None, None, now);
    (s.(users := s.users[id := user], nextUserId := id + 1), user)
  }

  /** `createAdminUser`: the same steps as `createUser`, with `isAdmin` set. */
  function CreateAdminUser(s: Store, data: NewUser, now: Time): (r: (Store, User))
    requires Valid(s)
    ensures var (plain, u) := CreateUser(s, data, now);
      && r.1 == u.(isAdmin := true)
      && r.0 == plain.(users := plain.users[u.id := r.1])
    ensures Valid(r.0)
  {
    var id := s.nextUserId;
    var user := User(id, data.username, data.email, data.password,
                     0, true, false, None, None, now);
    (s.(users := s.users[id := user], nextUserId := id + 1), user)
  }

  /** `s'` differs from `s` at most in the record stored under `id`. */
  predicate OnlyUserChanged(s: Store, s': Store, id: int) {
    && s'.users.Keys == s.users.Keys
    && (forall k | k in s.users && k != id :: s'.users[k] == s.users[k])
    && s'.transactions == s.transactions
    && s'.nextUserId == s.nextUserId
    && s'.nextTransactionId == s.nextTransactionId
  }

  /** `updateUserBanStatus`: sets the ban flag of an existing user. */
  function UpdateUserBanStatus(s: Store, id: int, banned: bool): (r: Result<Store>)
    ensures r.Err? <==> id !in s.users
    ensures r.Ok? ==> && OnlyUserChanged(s, r.value, id)
                      && r.value.users[id].isBanned == banned
                      && r.value.users[id].(isBanned := s.users[id].isBanned) == s.users[id]
    ensures r.Ok? && Valid(s) ==> Valid(r.value)
  {
    if id !in s.users then Err(UserNotFound)
    else Ok(s.(users := s.users[id := s.users[id].(isBanned := banned)]))
  }

  /** `updateLastLogin`: records the address and time of a login. */
  function UpdateLastLogin(s: Store, id: int, ip: string, now: Time): (r: Result<Store>)
    ensures r.Err? <==> id !in s.users
    ensures r.Ok? ==> && OnlyUserChanged(s, r.value, id)
                      && r.value.users[id].lastLoginIp == Some(ip)
                      && r.value.users[id].lastLoginTime == Some(now)
                      && r.value.users[id].(lastLoginIp := s.users[id].lastLoginIp,
                                            lastLoginTime := s.users[id].lastLoginTime)
                         == s.users[id]
    ensures r.Ok? && Valid(s) ==> Valid(r.value)
  {
    if id !in s.users then Err(UserNotFound)
    else Ok(s.(users := s.users[id := s.users[id].(lastLoginIp := Some(ip),
                                                   lastLoginTime := Some(now))]))
  }

  /** `detectMultipleAccounts`: every user whose last login came from `ip`,
      in ascending id order. */
  function DetectMultipleAccounts(s: Store, ip: string): (r: seq<User>)
    requires Valid(s)
    ensures forall u :: u in r <==> && u.id in s.users && s.users[u.id] == u
                                    && u.lastLoginIp == Some(ip)
    ensures forall i, j | 0 <= i < j < |r| :: r[i].id < r[j].id
  {
    var ks := Select(UserIds(s), id => id in s.users && s.users[id].lastLoginIp == Some(ip));
    UsersAt(s, ks)
  }

  /** The filter of `getTransactions`: the key holds a transaction of `uid`. */
  function Owns(m: map<int, Transaction>, uid: int): int -> bool {
    id => id in m && m[id].userId == uid
  }

  /** The keys below `n` holding transactions of `uid`, in key order. */
  function OwnedKeys(m: map<int, Transaction>, uid: int, n: int): (ks: seq<int>)
    ensures Increasing(ks)
    ensures forall id :: id in ks <==> 1 <= id < n && id in m && m[id].userId == uid
    ensures forall i | 0 <= i < |ks| :: ks[i] in m
  {
    var ks := Select(OrderedKeys(m, n), Owns(m, uid));
    assert forall i | 0 <= i < |ks| :: ks[i] in ks;
    ks
  }

  /** The ids of `uid`'s transactions in insertion order (the `filter` step
      of `getTransactions`). */
  function TransactionIdsOf(s: Store, uid: int): (ks: seq<int>)
    requires Valid(s)
    ensures Increasing(ks)
    ensures forall id :: id in ks <==> id in s.transactions && s.transactions[id].userId == uid
    ensures forall i | 0 <= i < |ks| :: ks[i] in s.transactions
  {
    OwnedKeys(s.transactions, uid, s.nextTransactionId)
  }

  /** The transactions at the ids `ks`, in that order. */
  function TransactionsAt(s: Store, ks: seq<int>): (r: seq<Transaction>)
    requires Valid(s)
    requires forall i | 0 <= i < |ks| :: ks[i] in s.transactions
    requires Increasing(ks)
    ensures forall t :: t in r <==> t.id in ks && t.id in s.transactions && s.transactions[t.id] == t
    ensures NewestFirst.IdsAscending(r)
  {
    var r := ValuesAt(s.transactions, ks);
    assert forall i | 0 <= i < |r| :: r[i].id == ks[i];
    assert forall t: Transaction | t.id in ks && t.id in s.transactions && s.transactions[t.id] == t :: t in r by {
      forall t: Transaction | t.id in ks && t.id in s.transactions && s.transactions[t.id] == t
        ensures t in r
      {
        var i :| 0 <= i < |ks| && ks[i] == t.id;
        assert r[i] == t;
      }
    }
    r
  }

  /** `uid`'s stored transactions in insertion order, before sorting. */
  function TransactionsOf(s: Store, uid: int): (r: seq<Transaction>)
    requires Valid(s)
    ensures forall t :: t in r <==> && t.id in s.transactions && s.transactions[t.id] == t
                                    && t.userId == uid
    ensures NewestFirst.IdsAscending(r)
  {
    TransactionsAt(s, TransactionIdsOf(s, uid))
  }

  /** `getTransactions`: exactly the stored transactions of `uid`, each once,
      newest first; equal timestamps keep insertion order. */
  function GetTransactions(s: Store, uid: int): (r: seq<Transaction>)
    requires Valid(s)
    ensures forall t :: t in r <==> && t.id in s.transactions && s.transactions[t.id] == t
                                    && t.userId == uid
    ensures NewestFirst.Ordered(r)
    ensures forall i, j | 0 <= i < j < |r| :: r[i].createdAt >= r[j].createdAt
  {
    var found := TransactionsOf(s, uid);
    var r := NewestFirst.Sort(found);
    NewestFirst.SortOrdered(found);
    assert forall t :: t in r <==> t in multiset(found);
    r
  }

  /** `createTransaction`: takes the next transaction id and stores the
      entry, stamped with its owner and the time. The amount and type are
      stored exactly as given; the owner is not checked to exist. */
  function CreateTransaction(s: Store, uid: int, data: NewTransaction, now: Time): (r: (Store, Transaction))
    requires Valid(s)
    ensures var (s', t) := r;
      && t.id == s.nextTransactionId && t.id !in s.transactions
      && t.userId == uid && t.amount == data.amount && t.kind == data.kind
      && t.description == data.description && t.createdAt == now
      && s'.transactions == s.transactions[t.id := t]
      && s'.nextTransactionId == s.nextTransactionId + 1
      && s'.users == s.users && s'.nextUserId == s.nextUserId
      && Valid(s')
  {
    var id := s.nextTransactionId;
    var t := Transaction(id, uid, data.amount, data.kind, data.description, now);
    (s.(transactions := s.transactions[id := t], nextTransactionId := id + 1), t)
  }

  /** `updateBalance`: adds `delta` to an existing user's balance. No sign
      check and no lower bound. */
  function UpdateBalance(s: Store, id: int, delta: int): (r: Result<Store>)
    ensures r.Err? <==> id !in s.users
    ensures r.Ok? ==> && OnlyUserChanged(s, r.value, id)
                      && r.value.users[id].balance == s.users[id].balance + delta
                      && r.value.users[id].(balance := s.users[id].balance) == s.users[id]
    ensures r.Ok? && Valid(s) ==> Valid(r.value)
  {
    if id !in s.users then Err(UserNotFound)
    else Ok(s.(users := s.users[id := s.users[id].(balance := s.users[id].balance + delta)]))
  }
}

=== FILE: store_facts.dfy ===
/** Properties relating several `MemStorage` operations. */
module StoreFacts {
  import opened Types
  import opened Storage
  import NewestFirst

  /** Setting the same ban flag twice is the same as setting it once. */
  lemma BanIdempotent(s: Store, id: int, banned: bool)
    requires UpdateUserBanStatus(s, id, banned).Ok?
    ensures var s1 := UpdateUserBanStatus(s, id, banned).value;
      UpdateUserBanStatus(s1, id, banned) == Ok(s1)
  {
    var s1 := UpdateUserBanStatus(s, id, banned).value;
    assert s1.users[id].(isBanned := banned) == s1.users[id];
    assert s1.users[id := s1.users[id]] == s1.users;
  }

  /** Recording the same login twice is the same as recording it once. */
  lemma LoginIdempotent(s: Store, id: int, ip: string, now: Time)
    requires UpdateLastLogin(s, id, ip, now).Ok?
    ensures var s1 := UpdateLastLogin(s, id, ip, now).value;
      UpdateLastLogin(s1, id, ip, now) == Ok(s1)
  {
    var s1 := UpdateLastLogin(s, id, ip, now).value;
    assert s1.users[id].(lastLoginIp := Some(ip), lastLoginTime := Some(now)) == s1.users[id];
    assert s1.users[id := s1.users[id]] == s1.users;
  }

  /** A user whose login was just recorded from `ip` is among the accounts
      reported for `ip`, and the report names nobody else's address. */
  lemma LoginDetected(s: Store, id: int, ip: string, now: Time)
    requires Valid(s)
    requires id in s.users
    ensures var s1 := UpdateLastLogin(s, id, ip, now).value;
      && s1.users[id] in DetectMultipleAccounts(s1, ip)
      && forall u | u in DetectMultipleAccounts(s1, ip) :: u.lastLoginIp == Some(ip)
  {
    var s1 := UpdateLastLogin(s, id, ip, now).value;
    assert s1.users[id].id == id;
  }

  /** The store accepts a second account with a username that is already
      taken; lookups by that name keep returning the earlier account. */
  lemma DuplicateUsernameAccepted(s: Store, data: NewUser, now: Time)
    requires Valid(s)
    requires GetUserByUsername(s, data.username).Some?
    ensures var (s1, u) := CreateUser(s, data, now);
      && u.id in s1.users && u.username == data.username
      && GetUserByUsername(s1, data.username) == GetUserByUsername(s, data.username)
  {
    var (s1, u) := CreateUser(s, data, now);
    var earlier := GetUserByUsername(s, data.username).value;
    var r := GetUserByUsername(s1, data.username);
    assert earlier.id in s1.users && s1.users[earlier.id].username == data.username;
    assert r.value.id <= earlier.id;
    assert r.value.id != u.id;
  }

  /** Ids are handed out in strictly increasing order, users and admins
      drawing on one counter. */
  lemma IdsIncrease(s: Store, a: NewUser, b: NewUser, now: Time)
    requires Valid(s)
    ensures var (s1, u1) := CreateUser(s, a, now);
      var (s2, u2) := CreateAdminUser(s1, b, now);
      u1.id < u2.id && u1.id in s2.users && u2.id in s2.users && u2.id !in s1.users
  {
  }

  /** A transaction stamped strictly later than all of its owner's earlier
      ones is listed first. With an equal timestamp it is listed after them,
      because the sort keeps insertion order among ties. */
  lemma LatestListedFirst(s: Store, uid: int, data: NewTransaction, now: Time)
    requires Valid(s)
    requires forall k | k in s.transactions && s.transactions[k].userId == uid ::
               s.transactions[k].createdAt < now
    ensures var (s1, t) := CreateTransaction(s, uid, data, now);
      var r := GetTransactions(s1, uid);
      |r| > 0 && r[0] == t
  {
    var (s1, t) := CreateTransaction(s, uid, data, now);
    var r := GetTransactions(s1, uid);
    assert t in r;
    var i :| 0 <= i < |r| && r[i] == t;
    assert r[0] in r;
    assert i == 0 || NewestFirst.Precedes(r[0], r[i]);
  }
}

=== FILE: types.dfy ===
/** Records held by the wallet's in-memory store, and the small wrapper types
    the store operations return. Field names follow the `users` and
    `transactions` tables of shared/schema.ts; timestamps are abstract clock
    readings supplied by the caller. */
module Types {

  /** A value that may be absent (`undefined` / `null` in the source). */
  datatype Option<T> = None | Some(value: T)

  /** The one failure the store signals: a mutation naming a user id that
      is not in the users map ("User not found"). */
  datatype StoreError = UserNotFound

  /** Outcome of a store mutation that can fail. */
  datatype Result<T> = Ok(value: T) | Err(error: StoreError)

  /** A clock reading (`new Date()`), supplied by the caller. */
  type Time = nat

  /** The fields a registration supplies (`InsertUser`). */
  datatype NewUser = NewUser(username: string, email: string, password: string)

  /** A stored account. `password` is whatever hash the caller stored. */
  datatype User = User(
    id: int,
    username: string,
    email: string,
    password: string,
    balance: int,
    isAdmin: bool,
    isBanned: bool,
    lastLoginIp: Option<string>,
    lastLoginTime: Option<Time>,
    createdAt: Time)

  /** The fields a transaction request supplies once the body schema has
      accepted it (`InsertTransaction`); `kind` is the source's `type`. */
  datatype NewTransaction = NewTransaction(amount: int, kind: string, description: string)

  /** A stored ledger entry. */
  datatype Transaction = Transaction(
    id: int,
    userId: int,
    amount: int,
    kind: string,
    description: string,
    createdAt: Time)
}
